=== FILE: README.md ===
# PisCue game state, modelled in Dafny

PisCue is a small browser side-scroller. A scholar walks right across two
levels. On level 1 two chemistry zombies chase the scholar. On level 2 a
boss guards the hostage, Sir Jaypee. The scholar jumps (paying energy),
swings a melee attack (paying energy per hit) and takes contact damage. The
game ends when health runs out, when the scholar walks off the right edge
of the last level, or when the hostage is rescued after the boss is dead.

This project models the per-frame game logic of `indexjs.js` with the
canvas, images and DOM removed:

- `Geometry`: the box-overlap test `isColliding` with its inset buffer.
- `Entities`: `Enemy` (chase, `takeDamage`) and `NPC` (the `saved` flag).
- `Players`: the player record, its constants, and the input snapshot that
  replaces the `keys` map (`a`, `d`, `w` or space, `e`). It also holds the
  walk, jump, gravity/ground, cooldown and regeneration steps.
- `Combat`: the two `forEach` loops over the zombie list (the level-1 swing
  and level-1 contact damage), each with a proved closed form.
- `Game`: the `GameState` record (level, the `gameRunning` and
  `gameStarted` flags, player, zombies, optional boss, optional hostage)
  and the ten steps of `Player.update`. It also holds `Tick`, the
  `gameLoop` update order, `ReleaseAttack` (key-up of `e`) and `Click`
  (the canvas click handler).
- `Invariants`: the invariant of every reachable state, with proofs that
  frames, clicks and key-ups preserve it; resource bounds over any event
  sequence; the phase machine; the one-way flags.
- `EdgeWinExample`: concrete frames that win, or lose to contact damage, by the right edge.
- `Options`: the optional-value type used for the boss and the hostage.

Positions, health and energy are `real`. The canvas size is a parameter
(`Canvas`); the ground line is its height minus 40. The attack cooldown is
an `int`.

The model follows the code as written, including these behaviours:

- `takeDamage` subtracts unconditionally and never clamps an enemy's
  health. Called on a dead enemy it would keep lowering the health, so the
  method on its own is not idempotent after death
  (`Entities.DamageOnDeadEnemy`); it never revives an enemy. In the game
  this does not happen: both callers test `alive` before striking
  (indexjs.js:196, 202), so a dead enemy is never hit
  (`Invariants.DeadBossStaysDead`, `Invariants.DeadZombieStaysDead`).
- Restart is two clicks. After a death or a rescue, a click only clears
  `gameStarted`. The next click starts level 1 again. It resets position,
  health, energy, level and roster, but keeps the vertical speed, the
  ground flag, the cooldown and the swing flag.
- Walking off the right edge of the last level stops the game with the
  hostage unsaved. Unless contact damage in that same frame takes the last
  health (then it is a loss, and a click restarts:
  `EdgeWinExample.EdgeLossFromRightEdge`), the click handler has no branch
  for that state, so the win is final (`Invariants.EdgeWinIsFinal`,
  `EdgeWinExample.EdgeWinFromRightEdge`).
- The steps after one that stops the game still run in the same frame
  (contact damage, death check, rescue, regeneration). The enemies of the
  now-current level still move once.
- Contact damage is per overlapping zombie (0.5 each), and melee energy is
  paid per zombie hit.
- Falling does not clear `onGround`; only a jump does.

## Model

| member | source | states |
|---|---|---|
| Geometry.CollidingIsInsetOverlap | indexjs.js:279-286 | the buffered test is exactly plain overlap with the other box shrunk by the buffer on all four edges |
| Geometry.PlainCollisionIsSymmetric | indexjs.js:279-286 | with the default buffer 0 the test is interval overlap on both axes, hence symmetric in the two boxes |
| Geometry.BufferMonotone | indexjs.js:279-286 | a collision with buffer b2 is a collision with every buffer b1 <= b2 |
| Entities.NewEnemy | indexjs.js:83-93 | a new enemy is alive with the given box, speed and health, and its ground y puts its feet on the ground line |
| Entities.NewNpc | indexjs.js:121-129 | a new hostage is unsaved with the given box, and is drawn with its feet on the ground line |
| Entities.UpdateEnemy | indexjs.js:95-103 | a dead enemy is untouched; a live one moves exactly its speed, left iff the player is strictly left of it, and snaps to its ground y; nothing else changes |
| Entities.ChaseClosesGap | indexjs.js:95-103 | a live enemy at least one step away and not level with the player closes the horizontal gap by exactly its speed |
| Entities.TakeDamage | indexjs.js:111-117 | health drops by the amount; the enemy is alive afterwards iff it was alive and its health is still positive, so it is never revived |
| Entities.DamageOnDeadEnemy | indexjs.js:111-117 | a positive blow on a dead enemy still lowers its health and leaves it dead |
| Entities.DamageSequence | indexjs.js:111-117 | over any sequence of blows health drops by their total, a dead enemy stays dead, and a non-positive final health after at least one blow means dead |
| Players.NewPlayer | indexjs.js:143-161 | the player starts at (100, 300), at rest, airborne, with health and energy 100, not attacking, cooldown 0 |
| Players.Spend | indexjs.js:198-199 | subtract-then-clamp never goes below zero, never rises from a non-negative value by a non-negative amount, and equals plain subtraction when the resource suffices |
| Players.Walk | indexjs.js:166-167 | only x changes; `a` alone moves 5 left, `d` alone 5 right, both or neither leave x unchanged |
| Players.Jump | indexjs.js:169-174 | the jump fires iff jump is held, the player is on the ground and energy is at least 10; it sets the speed to -12, clears the ground flag and costs exactly 10 energy, ending non-negative; otherwise the player is unchanged |
| Players.Fall | indexjs.js:176-184 | afterwards the feet are at or above the ground line; if the clamp fired the feet are on it, speed 0, on the ground; otherwise gravity was applied and the ground flag is unchanged |
| Players.CoolDown | indexjs.js:186-188 | a positive cooldown drops by one, a zero one stays; a cooldown within [0, 30] ends within [0, 30) |
| Players.Regenerate | indexjs.js:264-265 | energy rises by exactly 0.1 when that stays within 100 and is set to exactly 100 otherwise; it never exceeds 100, never falls from a value at most 100, and stays non-negative |
| Combat.StrikeZombies | indexjs.js:194-201 | each live zombie within reach 50 takes 20 damage and every other zombie is untouched; energy ends at its start minus 5 per hit, clamped at 0 |
| Combat.ContactZombies | indexjs.js:233-239 | health ends at its start minus 0.5 per live overlapping zombie, clamped at 0 |
| Game.Boot | indexjs.js:8-10 | at page load the game is on level 1, neither started nor running, with a fresh player and no roster |
| Game.Move | indexjs.js:166-188 | after the first four steps the feet are at or above the ground; energy drops by exactly the jump cost iff the jump guard held; health and the swing flag are untouched |
| Game.Attack | indexjs.js:190-209 | without `e`, with a swing in progress or a running cooldown nothing changes; otherwise the swing starts with cooldown 30, and the level-1 zombie rule or the level-2 boss rule (reach 70, damage 15, cost 10) applies; energy never rises |
| Game.LevelTwoBoss | indexjs.js:223 | the level-2 boss is a live 100x100 enemy at (700, 250) with speed 0.5 and health 200, whose ground y (ground line minus 100) is where it stands from its first chase on |
| Game.LevelTwoHostage | indexjs.js:224 | the level-2 hostage is an unsaved 50x50 NPC at (780, 320) |
| Game.Advance | indexjs.js:211-231 | past the right edge below the last level: the next level at x = 0, y = 300, and entering level 2 empties the zombies and spawns the boss and the hostage; past the right edge on the last level: only the running flag clears |
| Game.ContactDamage | indexjs.js:233-245 | health drops by 0.5 per overlapping live zombie on level 1, or by 1 if the live boss overlaps on level 2, clamped at 0; nothing else changes |
| Game.DeathCheck | indexjs.js:248-251 | non-positive health stops the game; otherwise nothing changes |
| Game.Rescue | indexjs.js:253-260 | the hostage is saved and the game stops iff on level 2 the boss is dead, the hostage unsaved and within buffer 20; otherwise nothing changes |
| Game.PlayerUpdate | indexjs.js:163-266 | a stopped game is untouched; a frame never lowers the level or touches the started flag, keeps running only with positive health, and leaves energy at most 100 |
| Game.MoveEnemies | indexjs.js:303-316 | on level 1 every zombie chases the player's new x; on level 2 the boss does; nothing else changes |
| Game.Tick | indexjs.js:291-319 | a stopped game is untouched; a frame never lowers the level, never restarts a stopped game and never touches the started flag |
| Game.ReleaseAttack | indexjs.js:369-376 | releasing `e` ends the swing and changes nothing else |
| Game.LevelOneZombies | indexjs.js:389-392 | level 1 starts with two live 70x70 zombies, at x 700 (speed 1, health 60) and x 500 (speed 1.2, health 70), on the ground line |
| Game.Click | indexjs.js:378-403 | before the start: start level 1 with reset position, health, energy and roster, keeping speed, ground flag, cooldown and swing; after a death or a rescue: only clear the started flag; otherwise nothing |
| Invariants.BootIsValid | indexjs.js:8-10 | the page-load state satisfies the invariant |
| Invariants.TickKeepsValid | indexjs.js:163-266 | a frame keeps health and energy in [0, 100], the cooldown in [0, 30], running only when started, the level in {1, 2} with its roster, and a saved hostage only in a stopped game |
| Invariants.ClickKeepsValid | indexjs.js:378-403 | a click keeps the invariant |
| Invariants.RunKeepsValid | indexjs.js:291-319 | any sequence of frames, clicks and key-ups keeps the invariant |
| Invariants.ResourcesStayBounded | indexjs.js:155-160 | from page load, after any events, health and energy are in [0, 100] and the cooldown in [0, 30] |
| Invariants.LevelNeverDecreases | indexjs.js:211-213 | over any sequence of frames the level never decreases and the started flag never changes; frames on a stopped game change nothing |
| Invariants.TickPhases | indexjs.js:291-292 | a frame on a game that is not playing changes nothing; a playing game stays playing, is won or is lost, and is lost from positive health only at exactly 0 |
| Invariants.RegenerationRunsAfterStop | indexjs.js:248-265 | with neither jump nor attack held, a running frame adds 0.1 energy capped at 100 even when a death or the rescue stopped the game earlier in the same frame |
| Invariants.ClickPhases | indexjs.js:378-403 | a click starts a not-started game, is ignored while playing, restarts after a loss, and restarts after a win iff the hostage was saved |
| Invariants.EdgeWinIsFinal | indexjs.js:226-229 | a win without a saved hostage stays a win under any events, with only the swing flag able to change |
| Invariants.RescueFiresOnce | indexjs.js:253-260 | the frame that saves the hostage stops the game, and every later frame leaves the state unchanged |
| Invariants.SavedStaysSaved | indexjs.js:253-260 | a saved hostage stays saved under a frame, and under a click unless the click starts a new game |
| Invariants.DeadBossStaysDead | indexjs.js:95-96 | a dead boss is left exactly as it is by a frame |
| Invariants.DeadZombieStaysDead | indexjs.js:195-196 | a dead zombie is left exactly as it is by a frame, unless the frame entered level 2 and emptied the list |
| EdgeWinExample.EdgeWinFromRightEdge | indexjs.js:226-229 | from a hand-built state, a live player on level 2 standing exactly at the right edge with the boss still standing, who holds `d` walks past the edge and wins with the hostage unsaved, and stays in that win forever; the starting state satisfies the invariant and is not yet past the edge |
| EdgeWinExample.EdgeLossFromRightEdge | indexjs.js:226-251 | from the same hand-built state with health 1, walking past the edge stops the game with the hostage unsaved, but the boss's contact damage that still runs in that frame takes the last health, so the frame ends lost and a click leaves it through the restart branch of indexjs.js:396 |

## Left out

- Asset and background loading (`loadAssets`, `loadBackgrounds`, the image
  callbacks, and the `loadAssets` call in the restart branch): asynchronous
  I/O against remote URLs. The enemies' and hostage's image keys are
  dropped with it.
- All drawing (`draw` methods, start/game-over/win screens, canvas clears,
  the player's sprite choice): rendering only.
- DOM writes (level label, health and energy bar widths): UI side effects.
- `requestAnimationFrame` scheduling and console output: a frame is one
  call of `Game.Tick`, and the click starts the sequence of frames.
- Keyboard listeners: replaced by the `Players.Input` snapshot read once per
  frame, plus the key-up of `e` as `Game.ReleaseAttack`.
- IEEE-754 rounding of 0.6, 0.1, 0.5 and 1.2: arithmetic is on `real`, so
  bit-exact float accumulation is not modelled.
- Combat.StrikeZombies: the closed form of the energy is stated only for a
  non-negative starting energy (the only kind a reachable state has); for a
  negative one only "no hit, no change" is stated.
- Combat.ContactZombies: likewise, the closed form of health is stated only
  for a non-negative starting health.
- Game.Attack: the level-1 energy closed form is stated only for a
  non-negative starting energy.
- Game.ContactDamage: the level-1 closed form is stated only for a
  non-negative starting health.

=== FILE: combat.dfy ===
/** Melee and contact resolution against the level-1 zombie list: the two
    `forEach` loops of the player's frame, and their closed forms. */
module Combat {
  import opened Geometry
  import opened Entities
  import opened Players

  const ZombieReach: real := 50.0
  const ZombieStrikeDamage: real := 20.0
  const ZombieStrikeCost: real := 5.0
  const BossReach: real := 70.0
  const BossStrikeDamage: real := 15.0
  const BossStrikeCost: real := 10.0
  const ZombieContactDamage: real := 0.5
  const BossContactDamage: real := 1.0
  const RescueReach: real := 20.0

  /** A live enemy that the player's box `body` touches with `buffer`. */
  predicate InReach(body: Box, e: Enemy, buffer: real)
  {
    e.alive && Colliding(body, EnemyBox(e), buffer)
  }

  /** How many enemies of `zs` are in reach. */
  function Reached(body: Box, zs: seq<Enemy>, buffer: real): (n: nat)
    ensures n <= |zs|
    decreases |zs|
  {
    if zs == [] then 0
    else (if InReach(body, zs[0], buffer) then 1 else 0) + Reached(body, zs[1..], buffer)
  }

  /** The level-1 swing: walk the list in order; each live zombie within
      the zombie reach takes a blow and each blow costs energy, clamped at
      zero after every blow. Returns the energy and the zombie list. */
  function StrikeZombies(body: Box, energy: real, zs: seq<Enemy>): (r: (real, seq<Enemy>))
    ensures |r.1| == |zs|
    ensures forall i :: 0 <= i < |zs| ==>
              r.1[i] == (if InReach(body, zs[i], ZombieReach)
                         then TakeDamage(zs[i], ZombieStrikeDamage) else zs[i])
    ensures Reached(body, zs, ZombieReach) == 0 ==> r.0 == energy
    ensures 0.0 <= energy ==>
              r.0 == Spend(energy, ZombieStrikeCost * Reached(body, zs, ZombieReach) as real)
    decreases |zs|
  {
    if zs == [] then (energy, [])
    else
      var hit := InReach(body, zs[0], ZombieReach);
      var e1 := if hit then Spend(energy, ZombieStrikeCost) else energy;
      var z1 := if hit then TakeDamage(zs[0], ZombieStrikeDamage) else zs[0];
      var rest := StrikeZombies(body, e1, zs[1..]);
      (rest.0, [z1] + rest.1)
  }

  /** Level-1 contact damage: each live zombie overlapping the player costs
      health, clamped at zero after every hit. */
  function ContactZombies(body: Box, health: real, zs: seq<Enemy>): (r: real)
    ensures Reached(body, zs, 0.0) == 0 ==> r == health
    ensures 0.0 <= health ==>
              r == Spend(health, ZombieContactDamage * Reached(body, zs, 0.0) as real)
    decreases |zs|
  {
    if zs == [] then health
    else
      var h1 := if InReach(body, zs[0], 0.0) then Spend(health, ZombieContactDamage) else health;
      ContactZombies(body, h1, zs[1..])
  }
}

=== FILE: edge_win_example.dfy ===
/** Concrete frames on an 800 by 500 canvas: the player, alive, on the ground
    of level 2 and exactly at the right edge, with the boss still standing
    and touching them, holds `d` and walks past the edge. With health to
    spare the game is won without the rescue, and that win is final; with
    only the boss's contact damage left, the same frame ends in a loss
    instead, and a click leaves it. */
module EdgeWinExample {
  import opened Options
  import opened Entities
  import opened Players
  import opened Game
  import opened Invariants

  const ExampleCanvas: Canvas := Canvas(800.0, 500.0)

  /** A hand-built level-2 state in play (not derived from page load): the
      player, with the given health, stands at the last x that is not past
      the edge, and the boss has already chased once and stands on the
      ground. */
  function BeforeEdge(health: real): GameState
  {
    var ground := GroundLine(ExampleCanvas);
    GameState(2, true, true,
              Player(ExampleCanvas.width - PlayerWidth, ground - PlayerHeight,
                     0.0, true, health, 50.0, false, 0),
              [], Some(UpdateEnemy(LevelTwoBoss(ground), 0.0)),
              Some(LevelTwoHostage(ground)))
  }

  lemma EdgeWinFromRightEdge(input: Input)
    requires input.right && !input.left
    ensures Valid(BeforeEdge(100.0)) && !PastRightEdge(BeforeEdge(100.0), ExampleCanvas)
    ensures var r := Tick(BeforeEdge(100.0), input, ExampleCanvas);
            && PhaseOf(r) == Won
            && r.npc.Some? && !r.npc.value.saved
            && forall evs: seq<Event> :: PhaseOf(Run(r, evs, ExampleCanvas)) == Won
  {
    var r := Tick(BeforeEdge(100.0), input, ExampleCanvas);
    forall evs: seq<Event>
      ensures PhaseOf(Run(r, evs, ExampleCanvas)) == Won
    {
      EdgeWinIsFinal(r, evs, ExampleCanvas);
    }
  }

  /** The same walk past the edge with exactly the boss's contact damage
      left: the frame stops the game with the hostage unsaved, but the
      contact damage that still runs after the stop takes the last health,
      so the frame ends lost and a click clears the started flag. */
  lemma EdgeLossFromRightEdge(input: Input)
    requires input.right && !input.left
    ensures Valid(BeforeEdge(1.0)) && !PastRightEdge(BeforeEdge(1.0), ExampleCanvas)
    ensures var r := Tick(BeforeEdge(1.0), input, ExampleCanvas);
            && PhaseOf(r) == Lost
            && r.npc.Some? && !r.npc.value.saved
            && PhaseOf(Click(r, ExampleCanvas)) == NotStarted
  {
  }
}

=== FILE: entities.dfy ===
/** The hostiles (`Enemy`: the level-1 zombies and the level-2 boss) and the
    hostage (`NPC`). */
module Entities {
  import opened Geometry

  /** A chasing hostile. `groundY` is fixed when the enemy is built: the
      ground line minus the enemy's height. */
  datatype Enemy = Enemy(x: real, y: real, width: real, height: real,
                         speed: real, health: real, alive: bool, groundY: real)

  /** The hostage. It collides at `y` but is drawn at `groundY`. */
  datatype Npc = Npc(x: real, y: real, width: real, height: real,
                     saved: bool, groundY: real)

  function EnemyBox(e: Enemy): Box
  {
    Box(e.x, e.y, e.width, e.height)
  }

  function NpcBox(n: Npc): Box
  {
    Box(n.x, n.y, n.width, n.height)
  }

  /** A fresh, live enemy standing on the ground line `ground`. */
  function NewEnemy(x: real, y: real, width: real, height: real,
                    speed: real, health: real, ground: real): (e: Enemy)
    ensures e.alive
    ensures EnemyBox(e) == Box(x, y, width, height)
    ensures e.speed == speed && e.health == health
    ensures e.groundY + e.height == ground
  {
    Enemy(x, y, width, height, speed, health, true, ground - height)
  }

  /** A fresh hostage, not yet saved. */
  function NewNpc(x: real, y: real, width: real, height: real, ground: real): (n: Npc)
    ensures !n.saved
    ensures NpcBox(n) == Box(x, y, width, height)
    ensures n.groundY + n.height == ground
  {
    Npc(x, y, width, height, false, ground - height)
  }

  /** One frame of chasing the player standing at `playerX`. */
  function UpdateEnemy(e: Enemy, playerX: real): (r: Enemy)
    ensures !e.alive ==> r == e
    ensures e.alive ==> r == e.(x := r.x, y := e.groundY)
    ensures e.alive && playerX < e.x ==> r.x == e.x - e.speed
    ensures e.alive && e.x <= playerX ==> r.x == e.x + e.speed
  {
    if !e.alive then e
    else
      var x := if playerX < e.x then e.x - e.speed else e.x + e.speed;
      e.(x := x, y := e.groundY)
  }

  function Abs(v: real): (r: real)
    ensures 0.0 <= r && (r == v || r == -v)
  {
    if v < 0.0 then -v else v
  }

  /** A live enemy that is not level with the player and at least one step
      away closes the gap by exactly its speed. */
  lemma ChaseClosesGap(e: Enemy, playerX: real)
    requires e.alive && 0.0 <= e.speed
    requires e.x != playerX && e.speed <= Abs(e.x - playerX)
    ensures Abs(UpdateEnemy(e, playerX).x - playerX) == Abs(e.x - playerX) - e.speed
  {
  }

  /** Health is subtracted unconditionally; the enemy dies once it is at or
      below zero and is never brought back. */
  function TakeDamage(e: Enemy, amount: real): (r: Enemy)
    ensures r.health == e.health - amount
    ensures r.alive <==> e.alive && r.health > 0.0
    ensures r == e.(health := r.health, alive := r.alive)
  {
    var health := e.health - amount;
    if health <= 0.0 then e.(health := health, alive := false)
    else e.(health := health)
  }

  /** Damage on a dead enemy still lowers its health: the call is not
      idempotent after death. */
  lemma DamageOnDeadEnemy(e: Enemy, amount: real)
    requires !e.alive && 0.0 < amount
    ensures !TakeDamage(e, amount).alive
    ensures TakeDamage(e, amount).health < e.health
  {
  }

  /** The blows of `amounts`, taken in order. */
  function DamageAll(e: Enemy, amounts: seq<real>): Enemy
    decreases |amounts|
  {
    if amounts == [] then e else DamageAll(TakeDamage(e, amounts[0]), amounts[1..])
  }

  function Total(amounts: seq<real>): real
    decreases |amounts|
  {
    if amounts == [] then 0.0 else amounts[0] + Total(amounts[1..])
  }

  /** Over any sequence of blows: health drops by their total, a dead enemy
      stays dead, and an enemy whose health ends at or below zero after at
      least one blow is dead. */
  lemma {:induction false} DamageSequence(e: Enemy, amounts: seq<real>)
    ensures DamageAll(e, amounts).health == e.health - Total(amounts)
    ensures !e.alive ==> !DamageAll(e, amounts).alive
    ensures amounts != [] && DamageAll(e, amounts).health <= 0.0 ==> !DamageAll(e, amounts).alive
    ensures DamageAll(e, amounts).alive ==> e.alive
    decreases |amounts|
  {
    if amounts != [] {
      DamageSequence(TakeDamage(e, amounts[0]), amounts[1..]);
    }
  }
}

=== FILE: game.dfy ===
/** The game state, the player's ten-step frame, the game loop's update order,
    the key-up of `e` and the canvas click handler. */
module Game {
  import opened Options
  import opened Geometry
  import opened Entities
  import opened Players
  import opened Combat

  /** The drawing surface; only its size matters to the game logic. */
  datatype Canvas = Canvas(width: real, height: real)

  /** The line the feet of the player and every enemy rest on. */
  function GroundLine(c: Canvas): real
  {
    c.height - 40.0
  }

  /** Number of levels (one per background). */
  const LevelCount: int := 2

  /** Everything one frame reads and writes: the current level, the two phase
      flags, the player, the level-1 zombies, the level-2 boss and hostage. */
  datatype GameState = GameState(level: int, running: bool, started: bool,
                                 player: Player, zombies: seq<Enemy>,
                                 boss: Option<Enemy>, npc: Option<Npc>)

  /** The state after the page has loaded, before the first click. */
  function Boot(): (s: GameState)
    ensures s.level == 1 && !s.running && !s.started
    ensures s.player == NewPlayer()
    ensures s.zombies == [] && s.boss == None && s.npc == None
  {
    GameState(1, false, false, NewPlayer(), [], None, None)
  }

  function Body(s: GameState): Box
  {
    PlayerBox(s.player)
  }

  /** Steps 1-4: walk, jump, fall and land, cool down. */
  function Move(s: GameState, input: Input, canvas: Canvas): (r: GameState)
    ensures r == s.(player := r.player)
    ensures r.player.y + PlayerHeight <= GroundLine(canvas)
    ensures r.player.health == s.player.health && r.player.isAttacking == s.player.isAttacking
    ensures CanJump(s.player, input) ==>
              r.player.energy == s.player.energy - JumpEnergyCost
    ensures !CanJump(s.player, input) ==>
              r.player.energy == s.player.energy && (r.player.onGround || !s.player.onGround)
  {
    s.(player := CoolDown(Fall(Jump(Walk(s.player, input), input), GroundLine(canvas))))
  }

  /** Step 5: the melee swing of the current level. */
  function Attack(s: GameState, input: Input): (r: GameState)
    ensures !CanAttack(s.player, input) ==> r == s
    ensures r == s.(player := r.player, zombies := r.zombies, boss := r.boss)
    ensures r.player == s.player.(isAttacking := r.player.isAttacking,
                                  attackCooldown := r.player.attackCooldown,
                                  energy := r.player.energy)
    ensures CanAttack(s.player, input) ==>
              r.player.isAttacking && r.player.attackCooldown == MaxAttackCooldown
    ensures 0.0 <= s.player.energy ==> 0.0 <= r.player.energy <= s.player.energy
    // Level 1: every live zombie in reach takes a blow, each blow costs energy.
    ensures CanAttack(s.player, input) && s.level == 1 ==>
              && r.boss == s.boss
              && |r.zombies| == |s.zombies|
              && (forall i :: 0 <= i < |s.zombies| ==>
                    r.zombies[i] == (if InReach(Body(s), s.zombies[i], ZombieReach)
                                     then TakeDamage(s.zombies[i], ZombieStrikeDamage)
                                     else s.zombies[i]))
              && (0.0 <= s.player.energy ==>
                    r.player.energy == Spend(s.player.energy,
                                             ZombieStrikeCost * Reached(Body(s), s.zombies, ZombieReach) as real))
    // Level 2: only the boss can be hit, with a wider reach and a higher cost.
    ensures CanAttack(s.player, input) && s.level == 2 ==>
              && r.zombies == s.zombies
              && (s.boss.Some? && InReach(Body(s), s.boss.value, BossReach) ==>
                    && r.boss == Some(TakeDamage(s.boss.value, BossStrikeDamage))
                    && r.player.energy == Spend(s.player.energy, BossStrikeCost))
              && (!(s.boss.Some? && InReach(Body(s), s.boss.value, BossReach)) ==>
                    r.boss == s.boss && r.player.energy == s.player.energy)
  {
    if !CanAttack(s.player, input) then s
    else
      var p := s.player.(isAttacking := true, attackCooldown := MaxAttackCooldown);
      if s.level == 1 then
        var (energy, zs) := StrikeZombies(PlayerBox(p), p.energy, s.zombies);
        s.(player := p.(energy := energy), zombies := zs)
      else if s.level == 2 && s.boss.Some? && s.boss.value.alive then
        if Colliding(PlayerBox(p), EnemyBox(s.boss.value), BossReach) then
          s.(player := p.(energy := Spend(p.energy, BossStrikeCost)),
             boss := Some(TakeDamage(s.boss.value, BossStrikeDamage)))
        else s.(player := p)
      else s.(player := p)
  }

  /** The player's right edge is past the canvas's right edge. */
  predicate PastRightEdge(s: GameState, canvas: Canvas)
  {
    s.player.x > canvas.width - PlayerWidth
  }

  /** The boss of level 2. It spawns at y = 250 but stands on the ground
      line from its first chase on. */
  function LevelTwoBoss(ground: real): (b: Enemy)
    ensures b.alive && b.health == 200.0 && b.speed == 0.5
    ensures EnemyBox(b) == Box(700.0, 250.0, 100.0, 100.0)
    ensures b.groundY + b.height == ground
  {
    NewEnemy(700.0, 250.0, 100.0, 100.0, 0.5, 200.0, ground)
  }

  /** The hostage of level 2. */
  function LevelTwoHostage(ground: real): (n: Npc)
    ensures !n.saved
    ensures NpcBox(n) == Box(780.0, 320.0, 50.0, 50.0)
  {
    NewNpc(780.0, 320.0, 50.0, 50.0, ground)
  }

  /** Step 6: crossing the right edge advances the level, or wins the game
      when it is the last level. */
  function Advance(s: GameState, canvas: Canvas): (r: GameState)
    ensures !PastRightEdge(s, canvas) ==> r == s
    ensures r.level >= s.level && r.started == s.started
    ensures r.player == s.player || r.player == s.player.(x := 0.0, y := 300.0)
    ensures PastRightEdge(s, canvas) && s.level < LevelCount ==>
              && r.level == s.level + 1
              && r.player == s.player.(x := 0.0, y := 300.0)
              && r.running == s.running
    ensures PastRightEdge(s, canvas) && s.level + 1 == 2 ==>
              && r.zombies == []
              && r.boss == Some(LevelTwoBoss(GroundLine(canvas)))
              && r.npc == Some(LevelTwoHostage(GroundLine(canvas)))
    ensures PastRightEdge(s, canvas) && s.level >= LevelCount ==>
              r == s.(running := false)
  {
    if !PastRightEdge(s, canvas) then s
    else if s.level < LevelCount then
      var s1 := s.(level := s.level + 1, player := s.player.(x := 0.0, y := 300.0));
      if s1.level == 2 then
        s1.(zombies := [], boss := Some(LevelTwoBoss(GroundLine(canvas))),
            npc := Some(LevelTwoHostage(GroundLine(canvas))))
      else s1
    else s.(running := false)
  }

  /** Step 7: contact damage of the current level. */
  function ContactDamage(s: GameState): (r: GameState)
    ensures r == s.(player := s.player.(health := r.player.health))
    ensures 0.0 <= s.player.health ==> 0.0 <= r.player.health <= s.player.health
    ensures s.level == 1 && 0.0 <= s.player.health ==>
              r.player.health == Spend(s.player.health,
                                       ZombieContactDamage * Reached(Body(s), s.zombies, 0.0) as real)
    ensures s.level == 2 ==>
              r.player.health == (if s.boss.Some? && InReach(Body(s), s.boss.value, 0.0)
                                  then Spend(s.player.health, BossContactDamage)
                                  else s.player.health)
    ensures s.level != 1 && s.level != 2 ==> r == s
  {
    if s.level == 1 then
      s.(player := s.player.(health := ContactZombies(Body(s), s.player.health, s.zombies)))
    else if s.level == 2 && s.boss.Some? && s.boss.value.alive then
      if Colliding(Body(s), EnemyBox(s.boss.value), 0.0) then
        s.(player := s.player.(health := Spend(s.player.health, BossContactDamage)))
      else s
    else s
  }

  /** Step 8: no health left stops the game. */
  function DeathCheck(s: GameState): (r: GameState)
    ensures s.player.health <= 0.0 ==> r == s.(running := false)
    ensures 0.0 < s.player.health ==> r == s
  {
    if s.player.health <= 0.0 then s.(running := false) else s
  }

  /** The rescue guard: level 2, the boss is dead, the hostage is not yet
      saved and the player touches it within the rescue buffer. */
  predicate CanRescue(s: GameState)
  {
    && s.level == 2
    && s.npc.Some? && !s.npc.value.saved
    && s.boss.Some? && !s.boss.value.alive
    && Colliding(Body(s), NpcBox(s.npc.value), RescueReach)
  }

  /** Step 9: the rescue saves the hostage and stops the game. */
  function Rescue(s: GameState): (r: GameState)
    ensures !CanRescue(s) ==> r == s
    ensures CanRescue(s) ==>
              r == s.(running := false, npc := Some(s.npc.value.(saved := true)))
  {
    if CanRescue(s) then s.(running := false, npc := Some(s.npc.value.(saved := true)))
    else s
  }

  /** The player's whole frame. It does nothing while the game is stopped;
      once started it runs every step even after one of them has stopped
      the game. */
  function PlayerUpdate(s: GameState, input: Input, canvas: Canvas): (r: GameState)
    ensures !s.running ==> r == s
    ensures r.started == s.started && r.level >= s.level
    ensures r.running ==> s.running && 0.0 < r.player.health
    ensures s.running ==> r.player.energy <= MaxEnergy
  {
    if !s.running then s
    else
      var s4 := Move(s, input, canvas);
      var s5 := Attack(s4, input);
      var s6 := Advance(s5, canvas);
      var s7 := ContactDamage(s6);
      var s8 := DeathCheck(s7);
      var s9 := Rescue(s8);
      s9.(player := Regenerate(s9.player))
  }

  /** The enemies' half of the game loop: chase the player's new position. */
  function MoveEnemies(s: GameState): (r: GameState)
    ensures r == s.(zombies := r.zombies, boss := r.boss)
    ensures s.level == 1 ==>
              && r.boss == s.boss && |r.zombies| == |s.zombies|
              && forall i :: 0 <= i < |s.zombies| ==>
                   r.zombies[i] == UpdateEnemy(s.zombies[i], s.player.x)
    ensures s.level == 2 ==>
              r.zombies == s.zombies
              && r.boss == (if s.boss.Some? then Some(UpdateEnemy(s.boss.value, s.player.x)) else None)
    ensures s.level != 1 && s.level != 2 ==> r == s
  {
    if s.level == 1 then
      s.(zombies := seq(|s.zombies|, i requires 0 <= i < |s.zombies| =>
                                       UpdateEnemy(s.zombies[i], s.player.x)))
    else if s.level == 2 && s.boss.Some? then
      s.(boss := Some(UpdateEnemy(s.boss.value, s.player.x)))
    else s
  }

  /** One scheduled frame of the game loop: nothing once stopped; otherwise
      the player's frame, then the enemies of the level the player is now on. */
  function Tick(s: GameState, input: Input, canvas: Canvas): (r: GameState)
    ensures !s.running ==> r == s
    ensures r.started == s.started && r.level >= s.level
    ensures r.running ==> s.running
  {
    if !s.running then s else MoveEnemies(PlayerUpdate(s, input, canvas))
  }

  /** Releasing `e` ends the current swing, whatever the phase. */
  function ReleaseAttack(s: GameState): (r: GameState)
    ensures !r.player.isAttacking
    ensures r.player == s.player.(isAttacking := false)
    ensures r == s.(player := r.player)
  {
    s.(player := s.player.(isAttacking := false))
  }

  /** The level-1 roster. */
  function LevelOneZombies(ground: real): (zs: seq<Enemy>)
    ensures |zs| == 2
    ensures EnemyBox(zs[0]) == Box(700.0, 300.0, 70.0, 70.0) && zs[0].speed == 1.0 && zs[0].health == 60.0
    ensures EnemyBox(zs[1]) == Box(500.0, 300.0, 70.0, 70.0) && zs[1].speed == 1.2 && zs[1].health == 70.0
    ensures forall z :: z in zs ==> z.alive && z.groundY + z.height == ground
  {
    [NewEnemy(700.0, 300.0, 70.0, 70.0, 1.0, 60.0, ground),
     NewEnemy(500.0, 300.0, 70.0, 70.0, 1.2, 70.0, ground)]
  }

  /** A stopped game that the click handler will send back to the start
      screen: the player died or the hostage was saved. */
  predicate CanRestart(s: GameState)
  {
    && !s.running
    && (s.player.health <= 0.0 || (s.npc.Some? && s.npc.value.saved))
  }

  /** The canvas click handler. Before the start it starts a fresh level 1,
      resetting position, health and energy but not the vertical speed, the
      ground flag, the cooldown or the swing; after a death or a rescue it
      only returns to the start screen; otherwise it does nothing. */
  function Click(s: GameState, canvas: Canvas): (r: GameState)
    ensures !s.started ==>
              && r.started && r.running && r.level == 1
              && r.player == s.player.(x := SpawnX, y := SpawnY,
                                       health := MaxHealth, energy := MaxEnergy)
              && r.zombies == LevelOneZombies(GroundLine(canvas))
              && r.boss == None && r.npc == None
    ensures s.started && CanRestart(s) ==> r == s.(started := false)
    ensures s.started && !CanRestart(s) ==> r == s
  {
    if !s.started then
      s.(started := true, running := true, level := 1,
         player := s.player.(health := MaxHealth, energy := MaxEnergy, x := SpawnX, y := SpawnY),
         zombies := LevelOneZombies(GroundLine(canvas)), boss := None, npc := None)
    else if !s.running && s.player.health <= 0.0 then s.(started := false)
    else if !s.running && s.npc.Some? && s.npc.value.saved then s.(started := false)
    else s
  }

  /** The phase shown to the player, derived from the two flags. A stopped
      game with health left is a win: by the right edge of the last level or
      by the rescue. */
  datatype Phase = NotStarted | Playing | Won | Lost

  function PhaseOf(s: GameState): Phase
  {
    if !s.started then NotStarted
    else if s.running then Playing
    else if s.player.health <= 0.0 then Lost
    else Won
  }
}

=== FILE: geometry.dfy ===
/** Axis-aligned boxes and the overlap test the player uses for melee reach,
    contact damage and the rescue. */
module Geometry {

  /** A rectangle in world units; `y` grows downwards. */
  datatype Box = Box(x: real, y: real, width: real, height: real)

  /** The open intervals (lo1, hi1) and (lo2, hi2) share a point. */
  predicate Intersect(lo1: real, hi1: real, lo2: real, hi2: real)
  {
    lo1 < hi2 && lo2 < hi1
  }

  /** Reference notion of overlap: the boxes meet on both axes. */
  predicate Overlap(a: Box, b: Box)
  {
    && Intersect(a.x, a.x + a.width, b.x, b.x + b.width)
    && Intersect(a.y, a.y + a.height, b.y, b.y + b.height)
  }

  /** `b` with each of its four edges pulled inwards by `d`. */
  function Inset(b: Box, d: real): (r: Box)
    ensures r.x == b.x + d && r.x + r.width == b.x + b.width - d
    ensures r.y == b.y + d && r.y + r.height == b.y + b.height - d
  {
    Box(b.x + d, b.y + d, b.width - 2.0 * d, b.height - 2.0 * d)
  }

  /** The player's collision test: `body` overlaps `other` once every edge of
      `other` has been pulled inwards by `buffer` (a buffer of 0 is the
      default argument). */
  predicate Colliding(body: Box, other: Box, buffer: real)
  {
    && body.x < other.x + other.width - buffer
    && body.x + body.width > other.x + buffer
    && body.y < other.y + other.height - buffer
    && body.y + body.height > other.y + buffer
  }

  /** The buffer is exactly an inset of the other box, on both axes. */
  lemma CollidingIsInsetOverlap(body: Box, other: Box, buffer: real)
    ensures Colliding(body, other, buffer) <==> Overlap(body, Inset(other, buffer))
  {
  }

  /** With no buffer the test is plain overlap, so it is symmetric. */
  lemma PlainCollisionIsSymmetric(a: Box, b: Box)
    ensures Colliding(a, b, 0.0) <==> Overlap(a, b)
    ensures Colliding(a, b, 0.0) <==> Colliding(b, a, 0.0)
  {
  }

  /** A larger buffer only shrinks the other box: a hit with buffer `b2`
      is a hit with every smaller buffer `b1`. */
  lemma BufferMonotone(body: Box, other: Box, b1: real, b2: real)
    requires b1 <= b2
    requires Colliding(body, other, b2)
    ensures Colliding(body, other, b1)
  {
  }
}

=== FILE: invariants.dfy ===
/** What holds of every state the game can reach from page load, whatever the
    keys, clicks and key-ups; the phase machine; and the one-way flags. */
module Invariants {
  import opened Options
  import opened Geometry
  import opened Entities
  import opened Players
  import opened Combat
  import opened Game

  /** The reachable-state invariant. */
  predicate Valid(s: GameState)
  {
    && 0.0 <= s.player.health <= MaxHealth
    && 0.0 <= s.player.energy <= MaxEnergy
    && 0 <= s.player.attackCooldown <= MaxAttackCooldown
    && (s.running ==> s.started)
    && (s.level == 1 || s.level == 2)
    && (s.level == 1 ==> s.boss.None? && s.npc.None?)
    && (s.level == 2 ==> s.boss.Some? && s.npc.Some? && s.zombies == [])
    && (s.npc.Some? && s.npc.value.saved ==> !s.running)
  }

  /** What can happen between two observations: a frame with the keys then
      held, a click on the canvas, or the release of `e`. */
  datatype Event = Frame(input: Input) | ClickCanvas | ReleaseE

  function Apply(s: GameState, ev: Event, canvas: Canvas): GameState
  {
    match ev
    case Frame(input) => Tick(s, input, canvas)
    case ClickCanvas => Click(s, canvas)
    case ReleaseE => ReleaseAttack(s)
  }

  function Run(s: GameState, evs: seq<Event>, canvas: Canvas): GameState
    decreases |evs|
  {
    if evs == [] then s else Run(Apply(s, evs[0], canvas), evs[1..], canvas)
  }

  lemma BootIsValid()
    ensures Valid(Boot())
  {
  }

  /** A frame keeps the invariant. */
  lemma TickKeepsValid(s: GameState, input: Input, canvas: Canvas)
    requires Valid(s)
    ensures Valid(Tick(s, input, canvas))
  {
  }

  lemma ClickKeepsValid(s: GameState, canvas: Canvas)
    requires Valid(s)
    ensures Valid(Click(s, canvas))
  {
  }

  lemma {:induction false} RunKeepsValid(s: GameState, evs: seq<Event>, canvas: Canvas)
    requires Valid(s)
    ensures Valid(Run(s, evs, canvas))
    decreases |evs|
  {
    if evs != [] {
      match evs[0] {
        case Frame(input) => TickKeepsValid(s, input, canvas);
        case ClickCanvas => ClickKeepsValid(s, canvas);
        case ReleaseE =>
      }
      RunKeepsValid(Apply(s, evs[0], canvas), evs[1..], canvas);
    }
  }

  /** From page load, after any keys, clicks and key-ups, health and energy
      stay within [0, 100] and the cooldown within [0, 30]. */
  lemma ResourcesStayBounded(evs: seq<Event>, canvas: Canvas)
    ensures var s := Run(Boot(), evs, canvas);
            && 0.0 <= s.player.health <= MaxHealth
            && 0.0 <= s.player.energy <= MaxEnergy
            && 0 <= s.player.attackCooldown <= MaxAttackCooldown
  {
    BootIsValid();
    RunKeepsValid(Boot(), evs, canvas);
  }

  /** A run of frames with no click or key-up in between. */
  function Frames(s: GameState, inputs: seq<Input>, canvas: Canvas): GameState
    decreases |inputs|
  {
    if inputs == [] then s else Frames(Tick(s, inputs[0], canvas), inputs[1..], canvas)
  }

  /** Within a run the level only goes up, and frames never start or
      restart a game. */
  lemma {:induction false} LevelNeverDecreases(s: GameState, inputs: seq<Input>, canvas: Canvas)
    ensures Frames(s, inputs, canvas).level >= s.level
    ensures Frames(s, inputs, canvas).started == s.started
    ensures !s.running ==> Frames(s, inputs, canvas) == s
    decreases |inputs|
  {
    if inputs != [] {
      LevelNeverDecreases(Tick(s, inputs[0], canvas), inputs[1..], canvas);
    }
  }

  /** Phase machine of a frame: a playing game stays playing, is won or is
      lost; a game that is not playing does not move. */
  lemma TickPhases(s: GameState, input: Input, canvas: Canvas)
    requires Valid(s)
    ensures PhaseOf(s) != Playing ==> Tick(s, input, canvas) == s
    ensures PhaseOf(s) == Playing ==> PhaseOf(Tick(s, input, canvas)) != NotStarted
    ensures PhaseOf(s) == Playing && s.player.health > 0.0 && PhaseOf(Tick(s, input, canvas)) == Lost ==>
              Tick(s, input, canvas).player.health == 0.0
  {
  }

  /** The steps after a stop still run: with neither jump nor attack held,
      a frame of a running game regenerates energy, whether or not that
      same frame stopped the game. */
  lemma RegenerationRunsAfterStop(s: GameState, input: Input, canvas: Canvas)
    requires Valid(s) && s.running
    requires !input.jump && !input.attack
    ensures var r := Tick(s, input, canvas);
            r.player.energy == (if s.player.energy + EnergyRegen > MaxEnergy then MaxEnergy
                                else s.player.energy + EnergyRegen)
  {
  }

  /** Phase machine of a click: start, restart after a loss, restart after a
      rescue; a win at the right edge of the last level is a dead end. */
  lemma ClickPhases(s: GameState, canvas: Canvas)
    requires Valid(s)
    ensures PhaseOf(s) == NotStarted ==> PhaseOf(Click(s, canvas)) == Playing
    ensures PhaseOf(s) == Playing ==> Click(s, canvas) == s
    ensures PhaseOf(s) == Lost ==> PhaseOf(Click(s, canvas)) == NotStarted
    ensures PhaseOf(s) == Won ==>
              (PhaseOf(Click(s, canvas)) == NotStarted <==> s.npc.Some? && s.npc.value.saved)
    ensures PhaseOf(s) == Won && !(s.npc.Some? && s.npc.value.saved) ==> Click(s, canvas) == s
  {
  }

  /** A win without the rescue (by walking off the last level) is never left:
      no sequence of frames, clicks and key-ups reaches another phase. */
  lemma {:induction false} EdgeWinIsFinal(s: GameState, evs: seq<Event>, canvas: Canvas)
    requires PhaseOf(s) == Won && !(s.npc.Some? && s.npc.value.saved)
    ensures PhaseOf(Run(s, evs, canvas)) == Won
    ensures Run(s, evs, canvas) == s.(player := Run(s, evs, canvas).player)
    ensures Run(s, evs, canvas).player == s.player.(isAttacking := Run(s, evs, canvas).player.isAttacking)
    decreases |evs|
  {
    if evs != [] {
      EdgeWinIsFinal(Apply(s, evs[0], canvas), evs[1..], canvas);
    }
  }

  /** The rescue fires at most once: the frame that saves the hostage stops
      the game, after which frames change nothing, and a saved hostage stays
      saved. */
  lemma RescueFiresOnce(s: GameState, input: Input, canvas: Canvas)
    requires Valid(s)
    requires s.npc.Some? && !s.npc.value.saved
    requires var r := Tick(s, input, canvas); r.npc.Some? && r.npc.value.saved
    ensures var r := Tick(s, input, canvas);
            && !r.running
            && PhaseOf(r) != Playing
            && forall next: Input :: Tick(r, next, canvas) == r
  {
  }

  lemma SavedStaysSaved(s: GameState, input: Input, canvas: Canvas)
    requires Valid(s)
    requires s.npc.Some? && s.npc.value.saved
    ensures Tick(s, input, canvas).npc == s.npc
    ensures Click(s, canvas).npc == s.npc || PhaseOf(Click(s, canvas)) == Playing
  {
  }

  /** A dead boss is never hit, never moves and never comes back. */
  lemma DeadBossStaysDead(s: GameState, input: Input, canvas: Canvas)
    requires Valid(s)
    requires s.boss.Some? && !s.boss.value.alive
    ensures Tick(s, input, canvas).boss == s.boss
  {
  }

  /** A dead zombie is left exactly as it was by a frame, unless the frame
      moved on to level 2 and emptied the list. */
  lemma DeadZombieStaysDead(s: GameState, input: Input, canvas: Canvas, i: int)
    requires Valid(s)
    requires 0 <= i < |s.zombies| && !s.zombies[i].alive
    ensures var r := Tick(s, input, canvas);
            r.zombies == [] || (|r.zombies| == |s.zombies| && r.zombies[i] == s.zombies[i])
  {
  }
}

=== FILE: options.dfy ===
/** Optional values, for the boss and the hostage that exist only on level 2. */
module Options {

  datatype Option<+T> = None | Some(value: T)
}

=== FILE: players.dfy ===
/** The player: its constants, the input snapshot it reads, and the movement,
    jump, cooldown and regeneration steps of one frame. */
module Players {
  import opened Geometry

  const PlayerWidth: real := 60.0
  const PlayerHeight: real := 60.0
  const WalkSpeed: real := 5.0
  const Gravity: real := 0.6
  const JumpPower: real := -12.0
  const MaxHealth: real := 100.0
  const MaxEnergy: real := 100.0
  const MaxAttackCooldown: int := 30
  const JumpEnergyCost: real := 10.0
  const EnergyRegen: real := 0.1
  const SpawnX: real := 100.0
  const SpawnY: real := 300.0

  /** The mutable part of the player; width, height, speed, gravity, jump
      power and the costs never change and are the constants above. */
  datatype Player = Player(x: real, y: real, velocityY: real, onGround: bool,
                           health: real, energy: real,
                           isAttacking: bool, attackCooldown: int)

  /** The keys held at the start of a frame: `a`, `d`, `w` or space, `e`. */
  datatype Input = Input(left: bool, right: bool, jump: bool, attack: bool)

  /** The player as built when the page loads. */
  function NewPlayer(): (p: Player)
    ensures p.x == SpawnX && p.y == SpawnY
    ensures p.health == MaxHealth && p.energy == MaxEnergy
    ensures p.velocityY == 0.0 && !p.onGround
    ensures !p.isAttacking && p.attackCooldown == 0
  {
    Player(SpawnX, SpawnY, 0.0, false, MaxHealth, MaxEnergy, false, 0)
  }

  function PlayerBox(p: Player): Box
  {
    Box(p.x, p.y, PlayerWidth, PlayerHeight)
  }

  /** Subtract `amount` from a resource and clamp the result at zero. */
  function Spend(v: real, amount: real): (r: real)
    ensures 0.0 <= r
    ensures 0.0 <= amount && 0.0 <= v ==> r <= v
    ensures amount <= v ==> r == v - amount
    ensures v <= amount ==> r == 0.0
  {
    if v - amount < 0.0 then 0.0 else v - amount
  }

  /** Step 1: `a` walks left and `d` walks right, one after the other. */
  function Walk(p: Player, input: Input): (r: Player)
    ensures r == p.(x := r.x)
    ensures input.left == input.right ==> r.x == p.x
    ensures input.left && !input.right ==> r.x == p.x - WalkSpeed
    ensures input.right && !input.left ==> r.x == p.x + WalkSpeed
  {
    var x1 := if input.left then p.x - WalkSpeed else p.x;
    var x2 := if input.right then x1 + WalkSpeed else x1;
    p.(x := x2)
  }

  /** The jump guard: jump key held, standing on the ground, enough energy. */
  predicate CanJump(p: Player, input: Input)
  {
    input.jump && p.onGround && p.energy >= JumpEnergyCost
  }

  /** Step 2: the energy-gated jump. */
  function Jump(p: Player, input: Input): (r: Player)
    ensures !CanJump(p, input) ==> r == p
    ensures CanJump(p, input) ==>
              && r == p.(velocityY := JumpPower, onGround := false, energy := r.energy)
              && r.energy == p.energy - JumpEnergyCost
              && 0.0 <= r.energy
  {
    if CanJump(p, input) then
      p.(velocityY := JumpPower, onGround := false,
         energy := Spend(p.energy, JumpEnergyCost))
    else p
  }

  /** The clamp fires when this frame's fall would take the feet to or past
      the ground line. */
  predicate Lands(p: Player, ground: real)
  {
    p.y + (p.velocityY + Gravity) + PlayerHeight >= ground
  }

  /** Step 3: gravity, then the ground clamp. */
  function Fall(p: Player, ground: real): (r: Player)
    ensures r == p.(y := r.y, velocityY := r.velocityY, onGround := r.onGround)
    ensures r.y + PlayerHeight <= ground
    ensures Lands(p, ground) ==>
              r.y + PlayerHeight == ground && r.velocityY == 0.0 && r.onGround
    ensures !Lands(p, ground) ==>
              && r.velocityY == p.velocityY + Gravity
              && r.y == p.y + r.velocityY
              && r.onGround == p.onGround
  {
    var vy := p.velocityY + Gravity;
    var y := p.y + vy;
    if y + PlayerHeight >= ground then
      p.(y := ground - PlayerHeight, velocityY := 0.0, onGround := true)
    else
      p.(y := y, velocityY := vy)
  }

  /** Step 4: the attack cooldown counts down to zero and no further. */
  function CoolDown(p: Player): (r: Player)
    ensures r == p.(attackCooldown := r.attackCooldown)
    ensures 0 < p.attackCooldown ==> r.attackCooldown == p.attackCooldown - 1
    ensures p.attackCooldown <= 0 ==> r.attackCooldown == p.attackCooldown
    ensures 0 <= p.attackCooldown <= MaxAttackCooldown ==>
              0 <= r.attackCooldown < MaxAttackCooldown
  {
    if p.attackCooldown > 0 then p.(attackCooldown := p.attackCooldown - 1) else p
  }

  /** The attack guard, read after the cooldown step: `e` held, not still in
      the previous swing, cooldown elapsed. */
  predicate CanAttack(p: Player, input: Input)
  {
    input.attack && !p.isAttacking && p.attackCooldown == 0
  }

  /** Step 10: passive energy regeneration, capped at the maximum. */
  function Regenerate(p: Player): (r: Player)
    ensures r == p.(energy := r.energy)
    ensures r.energy <= MaxEnergy
    ensures 0.0 <= p.energy ==> 0.0 <= r.energy
    ensures p.energy + EnergyRegen <= MaxEnergy ==> r.energy == p.energy + EnergyRegen
    ensures MaxEnergy < p.energy + EnergyRegen ==> r.energy == MaxEnergy
    ensures p.energy <= MaxEnergy ==> p.energy <= r.energy
  {
    var e := p.energy + EnergyRegen;
    p.(energy := if e > MaxEnergy then MaxEnergy else e)
  }
}
